=== FILE: README.md ===
# nestjs-s3: file-name helpers and object-key derivation

This project models the pure core of a NestJS adapter around an object-storage
SDK: the string helpers of `src/helpers.ts` (trailing-slash trimming,
extension detection, splitting a file name at its last dot) and the logic of
`S3Service` in `src/s3.service.ts` that derives object keys, picks the ACL and
bucket, builds the listing prefix, and renames the SDK's response fields.

JavaScript `undefined` is `Option.None`; strings are `seq<char>`. The helpers
are written with the JavaScript primitives the source calls (`lastIndexOf`,
`slice`, `substring`, in module `JsString`) so that -1 from `lastIndexOf` and
negative or out-of-range `slice`/`substring` arguments behave as in
ECMAScript. Each SDK call is a total function parameter from the request the
service builds to a `Result` (a resolved or rejected promise). The generated
UUID of `putAsUniqueName` is a parameter. `Date`, `Buffer` and the SDK's
delete output are type parameters.

Files:
- `wrappers.dfy`: `Option` and `Result`.
- `js_string.dfy`: `lastIndexOf`, `slice` and `substring` semantics.
- `interfaces.dfy`: configuration, uploaded file, responses, and the SDK request and response shapes.
- `helpers.dfy`, `helper_properties.dfy`: the helpers and their properties.
- `s3_service.dfy`, `service_properties.dfy`: the service and its properties.

The quirks of the source are modelled as written:
- `getFileName` on a name without a dot drops the last character, because it computes `slice(0, -1)`.
- `getFileExtension` on such a name returns the whole name, so `putAsUniqueName` names `README` as `<uuid>.README`.
- `put` without a path uploads to `/<originalname>`, with a leading slash. `putAsUniqueName` has no leading slash in that case.
- Any dot after the first character of the trimmed path makes `put` use the path itself as the key. This includes a dot in a folder part (`dir.x/f`) and a dotted folder with a trailing slash (`v1.2/` becomes the key `v1.2`).
- The configured `endpoint` is never passed to the client.

## Model

| member | source | states |
|---|---|---|
| Wrappers.Option.GetOr | src/s3.service.ts:35 | the value when present, otherwise the default (the `??` operator) |
| JsString.LastIndexOf | src/helpers.ts:12 | -1 exactly when the character is absent; otherwise an index holding it with no occurrence after it |
| JsString.RelativeIndex | src/helpers.ts:14 | a `slice` argument counts from the end when negative and is clamped to the length |
| JsString.Slice | src/helpers.ts:14 | in-range arguments give the piece between them; a non-negative start with a negative end cuts that many characters off the end (`slice(0, -1)` drops the last one); crossing positions give "" |
| JsString.SliceFrom | src/helpers.ts:20 | the result is the suffix from the resolved start position |
| JsString.Clamp | src/helpers.ts:6-7 | a `substring` argument is clamped to the range from 0 to the length |
| JsString.Substring | src/helpers.ts:7 | in-range arguments give the piece between them, in either order |
| JsString.SubstringFrom | src/helpers.ts:6 | the result is the suffix from the clamped start |
| Helpers.TrimLastSlash | src/helpers.ts:1-9 | undefined gives ""; the result is a prefix of the input, one character shorter when the input ends in `/` and the input itself otherwise |
| Helpers.HasExtension | src/helpers.ts:23-29 | true exactly when the string is defined and has a dot at some index above 0 |
| Helpers.GetFileName | src/helpers.ts:11-15 | with a dot, the prefix before the last dot; without one, the name minus its last character |
| Helpers.GetFileExtension | src/helpers.ts:17-21 | with a dot, the dot-free suffix after the last dot; without one, the whole name |
| Helpers.GetFileNameFromStr | src/helpers.ts:31-41 | undefined gives ""; without an extension the string itself; with one, the non-empty prefix before the last dot |
| Helpers.GetFileExtensionFromStr | src/helpers.ts:43-53 | "" without an extension (or undefined); with one, the dot-free suffix after the last dot |
| HelperProperties.TrimLastSlashRemovesOnlyOne | src/helpers.ts:1-9 | "a//" trims to "a/" and then to "a"; "/" and undefined trim to "" |
| HelperProperties.TrimLastSlashIdempotentIff | src/helpers.ts:6-8 | trimming twice equals trimming once exactly when the string does not end in two slashes |
| HelperProperties.HasExtensionExamples | src/helpers.ts:23-29 | ".bashrc", "" and undefined have no extension; "dir.x/f" and "photo.tar.gz" have one |
| HelperProperties.FileNameRoundTrip | src/helpers.ts:11-21 | for a name with a dot, base name + "." + extension is the name |
| HelperProperties.FileNameSplitJoin | src/helpers.ts:11-21 | splitting name + "." + ext gives back name and ext when ext has no dot |
| HelperProperties.FileNameWithoutDot | src/helpers.ts:11-21 | "README" has base name "READM" and extension "README" |
| HelperProperties.FromStrRoundTrip | src/helpers.ts:31-53 | when `hasExtension` holds, base name + "." + extension is the string |
| HelperProperties.FromStrSplitJoin | src/helpers.ts:31-53 | a non-empty name joined to a dot-free ext has an extension and splits back into name and ext |
| HelperProperties.FromStrAgreesWithFile | src/helpers.ts:11-53 | when `hasExtension` holds, the string helpers and the file helpers split the same way |
| HelperProperties.LeadingDotOnly | src/helpers.ts:11-53 | for a name whose only dot leads it, the file helpers give "" and the rest, the string helpers give the name and "" |
| Interfaces.AclName | src/interfaces.ts:13 | the wire string of each canned ACL; "public-read" is the wire string of exactly PublicRead |
| Interfaces.AclNameInjective | src/interfaces.ts:13 | no two canned ACLs share a wire name |
| S3Service.NewService | src/s3.service.ts:30-36 | the bucket is the configured one, the ACL the configured one or else public-read (wire name "public-read"), and the client gets the credentials and region |
| S3Service.PutKey | src/s3.service.ts:46-52 | a path with a dot after its first character gives the trimmed path as the key; any other path, or none, gives the trimmed path + "/" + the original name |
| S3Service.PutRequest | src/s3.service.ts:46-53 | the request carries the service's bucket and ACL, the file's buffer and the derived key |
| S3Service.Upload | src/s3.service.ts:75-89 | resolves exactly when the SDK does, with the SDK's location as URL and its output as origin; otherwise the SDK's error unchanged |
| S3Service.Put | src/s3.service.ts:42-56 | the upload outcome of the `put` request, with the SDK's error passed through |
| S3Service.UniqueFileName | src/s3.service.ts:63 | the name is the UUID, a dot, then the file's extension |
| S3Service.UniqueKey | src/s3.service.ts:62-69 | the key is the generated name when the trimmed folder is empty, and the trimmed folder + "/" + the generated name otherwise |
| S3Service.UniqueRequest | src/s3.service.ts:65-70 | the request carries the service's bucket and ACL, the file's buffer and the generated key |
| S3Service.PutAsUniqueName | src/s3.service.ts:58-73 | the upload outcome of the generated-name request, with the SDK's error passed through |
| S3Service.Delete | src/s3.service.ts:91-108 | resolves exactly when the SDK does, always with status true and the SDK's output; otherwise the SDK's error |
| S3Service.Get | src/s3.service.ts:136-158 | resolves exactly when the SDK does, echoing the requested key with the SDK's length, type and body |
| S3Service.ListRequest | src/s3.service.ts:110-116 | the bucket is the service's; the prefix is the folder minus its last character when that is `/`, the folder itself otherwise, "" when undefined |
| S3Service.ToItems | src/s3.service.ts:121-127 | one item per entry, same order, copying key, size and date, each with the listing's bucket name |
| S3Service.Lists | src/s3.service.ts:110-134 | resolves exactly when the SDK does and returns contents; SDK errors pass through; absent contents fail |
| ServiceProperties.AclDefault | src/s3.service.ts:31-35 | the ACL is the configured one when present and public-read otherwise; the bucket is the configured one |
| ServiceProperties.EndpointIgnored | src/s3.service.ts:31-33 | configurations differing only in endpoint build the same service |
| ServiceProperties.PutKeyWithoutPath | src/s3.service.ts:46-52 | with no path, the key is "/" + the original name |
| ServiceProperties.PutKeyIntoFolder | src/s3.service.ts:46-52 | a path without a dot after its first character is a folder: the name goes under it, after the path's own trailing slash if it has one and after an added "/" otherwise (only one slash is trimmed, so "photos//" gives "photos//a.png") |
| ServiceProperties.PutKeyDottedFolder | src/s3.service.ts:46-52 | a dotted path ending in `/` loses the slash and becomes the key, whatever the file is called |
| ServiceProperties.PutKeyExplicit | src/s3.service.ts:46-52 | a dotted path without a trailing slash is the key, whatever the file is called |
| ServiceProperties.PutKeyDottedPaths | src/s3.service.ts:46-52 | "dir.x/f" is a key; "v1.2/" becomes the key "v1.2"; "photos/" with "a.png" gives "photos/a.png"; "photos//" with "a.png" gives "photos//a.png" |
| ServiceProperties.UniqueKeyWithoutFolder | src/s3.service.ts:62-69 | an undefined, empty or lone-slash folder gives the bare generated name |
| ServiceProperties.UniqueKeyInFolder | src/s3.service.ts:62-69 | any other folder gets the generated name under it, after the folder's own trailing slash if it has one and after an added "/" otherwise (a folder ending in "//" keeps one of its two slashes) |
| ServiceProperties.UniqueNameKeepsExtension | src/s3.service.ts:63 | for a non-empty dot-free UUID and any name, the generated name splits back into the UUID and the file's extension |
| ServiceProperties.UniqueNameWithoutDot | src/s3.service.ts:63 | a name without a dot becomes the UUID, a dot and the whole name |
| ServiceProperties.UniqueKeyIgnoresBaseName | src/s3.service.ts:62-69 | files with the same extension get the same generated key |
| ServiceProperties.NoFolderLeadingSlash | src/s3.service.ts:46-69 | with no folder, `put` keys start with a slash and generated keys do not |
| ServiceProperties.ListPrefixTrimmed | src/s3.service.ts:111-116 | "photos/" lists "photos", "photos//" lists "photos/", undefined lists "" |
| ServiceProperties.ToItemsRoundTrip | src/s3.service.ts:121-127 | converting the items back gives exactly the SDK entries, in order |
| ServiceProperties.ToItemsAppend | src/s3.service.ts:121-127 | renaming two runs of entries together equals renaming them one after the other |

## Left out

- The SDK calls (`upload`, `deleteObject`, `listObjects`, `getObject`), the client object and `.promise()`. They are foreign library calls and network I/O, so each is a function parameter whose result the model passes on.
- `getClient`: it only returns the client. The client is the `ClientConfig` the constructor builds.
- `console.log` in the error handlers is not modelled. It is output only; the rethrow is modelled as the SDK's error returned unchanged.
- `uuidv4()` is not modelled. It is random, so the UUID is a parameter.
- The module registration in `src/s3.module.ts` and the re-exports in `src/index.ts` have no logic.
- The SDK marks `Key`, `Size`, `LastModified` and `Name` of a listing, and `ContentLength`, `ContentType` and `Body` of a fetched object, as optional. The model takes them as present, matching the service's own `Item` and `GotResponse` types; `get` would copy an undefined one through unchanged. Only an absent `Contents` is modelled, as the `ContentsMissing` failure.
- Multer file fields other than `originalname` and `buffer` are left out. The service does not read them.
- Strings are sequences of Unicode characters, not UTF-16 code units. Names with characters outside the Basic Multilingual Plane would have different indices in JavaScript.

=== FILE: helper_properties.dfy ===
/** Properties of the helpers: what trimming does and does not preserve, the
    characterisation of `hasExtension`, and the round trips between a name
    and its (base name, extension) split. */
module HelperProperties {
  import opened Wrappers
  import opened Interfaces
  import opened Helpers

  /** Exactly one trailing slash goes: "a//" becomes "a/", and a second trim
      gives "a", so trimming is not idempotent. */
  lemma TrimLastSlashRemovesOnlyOne()
    ensures TrimLastSlash(Some("a//")) == "a/"
    ensures TrimLastSlash(Some("a/")) == "a"
    ensures TrimLastSlash(Some("/")) == ""
    ensures TrimLastSlash(None) == ""
  {
  }

  /** Trimming twice equals trimming once exactly when the string does not end
      in two slashes. */
  lemma TrimLastSlashIdempotentIff(s: string)
    ensures TrimLastSlash(Some(TrimLastSlash(Some(s)))) == TrimLastSlash(Some(s))
            <==> !(|s| >= 2 && s[|s| - 1] == '/' && s[|s| - 2] == '/')
  {
  }

  /** A leading dot is not an extension, an empty or undefined string has
      none, and a dot in a directory part counts as one. */
  lemma HasExtensionExamples()
    ensures !HasExtension(Some(".bashrc"))
    ensures !HasExtension(Some(""))
    ensures !HasExtension(None)
    ensures HasExtension(Some("dir.x/f"))
    ensures HasExtension(Some("photo.tar.gz"))
  {
    assert "dir.x/f"[3] == '.';
    assert "photo.tar.gz"[5] == '.';
  }

  /** A name that contains a dot is its base name, a dot and its extension. */
  lemma FileNameRoundTrip<B>(file: UploadedFile<B>)
    requires '.' in file.originalname
    ensures GetFileName(file) + "." + GetFileExtension(file) == file.originalname
  {
  }

  /** Splitting a joined name gives back its parts, when the extension has no
      dot of its own. */
  lemma FileNameSplitJoin<B>(name: string, ext: string, buffer: B)
    requires '.' !in ext
    ensures GetFileName(UploadedFile(name + "." + ext, buffer)) == name
    ensures GetFileExtension(UploadedFile(name + "." + ext, buffer)) == ext
  {
    var s := name + "." + ext;
    assert s[|name|] == '.';
    var base := GetFileName(UploadedFile(s, buffer));
    assert s[|name| + 1..] == ext;
    assert '.' !in s[|name| + 1..];
    assert |base| == |name|;
    assert s[..|name|] == name;
  }

  /** Without a dot, `getFileName` drops the last character (it computes
      `slice(0, -1)`) and `getFileExtension` returns the whole name. */
  lemma FileNameWithoutDot<B>(buffer: B)
    ensures GetFileName(UploadedFile("README", buffer)) == "READM"
    ensures GetFileExtension(UploadedFile("README", buffer)) == "README"
  {
  }

  /** When `hasExtension` holds, the string is its base name, a dot and its
      extension. */
  lemma FromStrRoundTrip(s: string)
    requires HasExtension(Some(s))
    ensures GetFileNameFromStr(Some(s)) + "." + GetFileExtensionFromStr(Some(s)) == s
  {
  }

  /** Splitting a joined string gives back its parts, when the base name is
      not empty and the extension has no dot. */
  lemma FromStrSplitJoin(name: string, ext: string)
    requires |name| > 0 && '.' !in ext
    ensures HasExtension(Some(name + "." + ext))
    ensures GetFileNameFromStr(Some(name + "." + ext)) == name
    ensures GetFileExtensionFromStr(Some(name + "." + ext)) == ext
  {
    var s := name + "." + ext;
    assert s[|name|] == '.';
    FileNameSplitJoin(name, ext, ());
    FromStrAgreesWithFile(s, ());
  }

  /** Where `hasExtension` holds, the string helpers and the file helpers
      split a name the same way. */
  lemma FromStrAgreesWithFile<B>(s: string, buffer: B)
    requires HasExtension(Some(s))
    ensures GetFileNameFromStr(Some(s)) == GetFileName(UploadedFile(s, buffer))
    ensures GetFileExtensionFromStr(Some(s)) == GetFileExtension(UploadedFile(s, buffer))
  {
  }

  /** For a name whose only dot leads it, the two families disagree: the file
      helpers split at that dot, the string helpers see no extension. */
  lemma LeadingDotOnly<B>(s: string, buffer: B)
    requires |s| > 0 && s[0] == '.' && '.' !in s[1..]
    ensures GetFileName(UploadedFile(s, buffer)) == ""
    ensures GetFileExtension(UploadedFile(s, buffer)) == s[1..]
    ensures GetFileNameFromStr(Some(s)) == s
    ensures GetFileExtensionFromStr(Some(s)) == ""
  {
  }
}

=== FILE: helpers.dfy ===
/** The file-name and path helpers of `src/helpers.ts`. Each is written with
    the JavaScript primitives the source calls, so that the quirks of
    `lastIndexOf` returning -1 and of negative `slice` arguments are part of
    the model; the contracts state the results in plain sequence terms. */
module Helpers {
  import opened Wrappers
  import opened JsString
  import opened Interfaces

  /** `s` ends in a slash. */
  predicate EndsWithSlash(s: string) {
    |s| > 0 && s[|s| - 1] == '/'
  }

  /** `s` has a dot somewhere after its first character. */
  predicate DotAfterStart(s: string) {
    exists i :: 0 < i < |s| && s[i] == '.'
  }

  /** `trimLastSlash`: `undefined` becomes the empty string; otherwise one
      trailing slash, if there is one, is removed. */
  function TrimLastSlash(str: Option<string>): (r: string)
    ensures str.None? ==> r == ""
    ensures str.Some? ==> r <= str.value
    ensures str.Some? && EndsWithSlash(str.value) ==> |r| == |str.value| - 1
    ensures str.Some? && !EndsWithSlash(str.value) ==> r == str.value
  {
    match str
    case None => ""
    case Some(s) =>
      if SubstringFrom(s, |s| - 1) == "/" then Substring(s, 0, |s| - 1) else s
  }

  /** `hasExtension`: the string is defined and its last dot is not at
      index 0. */
  function HasExtension(str: Option<string>): (b: bool)
    ensures b <==> str.Some? && DotAfterStart(str.value)
  {
    match str
    case None => false
    case Some(s) =>
      var i := LastIndexOf(s, '.');
      assert DotAfterStart(s) ==> i > 0 by {
        if DotAfterStart(s) {
          var k :| 0 < k < |s| && s[k] == '.';
          assert k <= i;
        }
      }
      i > 0
  }

  /** `getFileName`: the part of the original name before its last dot. */
  function GetFileName<B>(file: UploadedFile<B>): (r: string)
    ensures var n := file.originalname;
            '.' in n ==> |r| < |n| && r == n[..|r|] && n[|r|] == '.' && '.' !in n[|r| + 1..]
    ensures var n := file.originalname;
            '.' !in n && |n| > 0 ==> r == n[..|n| - 1]
    ensures file.originalname == [] ==> r == []
  {
    var index := LastIndexOf(file.originalname, '.');
    Slice(file.originalname, 0, index)
  }

  /** `getFileExtension`: the part of the original name after its last dot. */
  function GetFileExtension<B>(file: UploadedFile<B>): (r: string)
    ensures var n := file.originalname;
            '.' in n ==> |r| < |n| && r == n[|n| - |r|..] && n[|n| - |r| - 1] == '.' && '.' !in r
    ensures '.' !in file.originalname ==> r == file.originalname
  {
    var index := LastIndexOf(file.originalname, '.');
    SliceFrom(file.originalname, index + 1)
  }

  /** `getFileNameFromStr`: the part before the last dot when
      `hasExtension` holds, the string itself when it does not. */
  function GetFileNameFromStr(str: Option<string>): (r: string)
    ensures str.None? ==> r == ""
    ensures str.Some? && !HasExtension(str) ==> r == str.value
    ensures HasExtension(str) ==>
              0 < |r| < |str.value| && r == str.value[..|r|]
              && str.value[|r|] == '.' && '.' !in str.value[|r| + 1..]
  {
    match str
    case None => ""
    case Some(s) =>
      if !HasExtension(str) then s else Slice(s, 0, LastIndexOf(s, '.'))
  }

  /** `getFileExtensionFromStr`: the part after the last dot when
      `hasExtension` holds, the empty string when it does not. */
  function GetFileExtensionFromStr(str: Option<string>): (r: string)
    ensures !HasExtension(str) ==> r == ""
    ensures HasExtension(str) ==>
              |r| < |str.value| - 1 && r == str.value[|str.value| - |r|..]
              && str.value[|str.value| - |r| - 1] == '.' && '.' !in r
  {
    match str
    case None => ""
    case Some(s) =>
      if !HasExtension(str) then "" else SliceFrom(s, LastIndexOf(s, '.') + 1)
  }
}

=== FILE: interfaces.dfy ===
/** Record shapes of the service: its configuration, the uploaded file, the
    responses it returns, and the parts of the storage SDK's requests and
    responses that the service reads or writes. `Date`, `Buffer` and the
    SDK's delete output are opaque to the service, so they are type
    parameters here. */
module Interfaces {
  import opened Wrappers

  /** The SDK's canned ACLs (`ObjectCannedACL`). */
  datatype CannedAcl =
    | Private
    | PublicRead
    | PublicReadWrite
    | AuthenticatedRead
    | AwsExecRead
    | BucketOwnerRead
    | BucketOwnerFullControl

  /** The wire name of each canned ACL. */
  function AclName(acl: CannedAcl): (name: string)
    ensures name == "public-read" <==> acl == PublicRead
  {
    match acl
    case Private => "private"
    case PublicRead => "public-read"
    case PublicReadWrite => "public-read-write"
    case AuthenticatedRead => "authenticated-read"
    case AwsExecRead => "aws-exec-read"
    case BucketOwnerRead => "bucket-owner-read"
    case BucketOwnerFullControl => "bucket-owner-full-control"
  }

  /** No two canned ACLs share a wire name, so a wire name determines the ACL. */
  lemma AclNameInjective(a: CannedAcl, b: CannedAcl)
    ensures AclName(a) == AclName(b) ==> a == b
  {
  }

  /** The module configuration (`Options`); `acl` and `endpoint` are optional. */
  datatype Options = Options(
    accessKeyId: string,
    secretAccessKey: string,
    region: string,
    bucket: string,
    acl: Option<CannedAcl>,
    endpoint: Option<string>)

  /** The part of an uploaded multipart file the service reads. */
  datatype UploadedFile<Buffer> = UploadedFile(originalname: string, buffer: Buffer)

  /** What the SDK's managed upload resolves with (`ManagedUpload.SendData`). */
  datatype SendData = SendData(location: string, eTag: string, bucket: string, key: string)

  /** The response of `put` and `putAsUniqueName`. */
  datatype UploadedResponse = UploadedResponse(url: string, origin: SendData)

  /** One listed object as the service reports it. */
  datatype Item<Date> = Item(key: string, size: int, lastModified: Date, bucket: string)

  /** The response of `get`. */
  datatype GotResponse<Buffer> =
    GotResponse(key: string, contentLength: int, contentType: string, body: Buffer)

  /** The response of `delete`. */
  datatype DeletedResponse<Output> = DeletedResponse(status: bool, origin: Output)

  /** The SDK request for an upload (`PutObjectRequest`). */
  datatype PutObjectRequest<Buffer> =
    PutObjectRequest(bucket: string, acl: CannedAcl, body: Buffer, key: string)

  /** The SDK request addressing one object (delete and get). */
  datatype ObjectRequest = ObjectRequest(bucket: string, key: string)

  /** The SDK request for a listing (`ListObjectsRequest`). */
  datatype ListObjectsRequest = ListObjectsRequest(bucket: string, prefix: string)

  /** One entry of a listing as the SDK returns it (`S3.Object`). */
  datatype S3Object<Date> = S3Object(key: string, size: int, lastModified: Date)

  /** A listing as the SDK returns it; `contents` may be absent. */
  datatype ListObjectsOutput<Date> =
    ListObjectsOutput(name: string, contents: Option<seq<S3Object<Date>>>)

  /** An object as the SDK returns it (`GetObjectOutput`). */
  datatype GetObjectOutput<Buffer> =
    GetObjectOutput(contentLength: int, contentType: string, body: Buffer)
}

=== FILE: js_string.dfy ===
/** The JavaScript string primitives the helpers rely on, with their exact
    ECMAScript semantics for negative and out-of-range indices. JavaScript
    strings are sequences of UTF-16 code units; here they are `seq<char>`,
    whose elements are Unicode scalar values, so indices agree only for
    characters inside the Basic Multilingual Plane. */
module JsString {

  /** `s.lastIndexOf(c)` for a one-character search string: the index of the
      last occurrence of `c`, or -1 when `c` does not occur. */
  function LastIndexOf(s: string, c: char): (r: int)
    ensures -1 <= r < |s|
    ensures r == -1 <==> c !in s
    ensures 0 <= r ==> s[r] == c
    ensures forall j :: r < j < |s| ==> s[j] != c
    decreases |s|
  {
    if |s| == 0 then -1
    else if s[|s| - 1] == c then |s| - 1
    else
      assert forall j :: 0 <= j < |s| - 1 ==> s[..|s| - 1][j] == s[j];
      LastIndexOf(s[..|s| - 1], c)
  }

  /** The position `slice` uses for an argument `k` on a string of length
      `len`: negative arguments count from the end, and the result is clamped
      to `[0, len]`. */
  function RelativeIndex(k: int, len: nat): (r: nat)
    ensures r <= len
    ensures 0 <= k <= len ==> r == k
    ensures k < 0 && 0 <= len + k ==> r == len + k
    ensures len + k < 0 ==> r == 0
    ensures len < k ==> r == len
  {
    if k < 0 then (if len + k < 0 then 0 else len + k)
    else if k > len then len
    else k
  }

  /** `s.slice(start, end)`. */
  function Slice(s: string, start: int, end: int): (r: string)
    ensures |r| <= |s|
    ensures 0 <= start <= end <= |s| ==> r == s[start..end]
    ensures 0 <= start && end < 0 && start <= |s| + end ==> r == s[start..|s| + end]
    ensures RelativeIndex(end, |s|) <= RelativeIndex(start, |s|) ==> r == []
  {
    var from := RelativeIndex(start, |s|);
    var to := RelativeIndex(end, |s|);
    if from < to then s[from..to] else []
  }

  /** `s.slice(start)`: the end defaults to the length. */
  function SliceFrom(s: string, start: int): (r: string)
    ensures r == s[RelativeIndex(start, |s|)..]
  {
    Slice(s, start, |s|)
  }

  /** The position `substring` uses for an argument: negative arguments
      become 0 and large ones the length. */
  function Clamp(k: int, len: nat): (r: nat)
    ensures r <= len
    ensures 0 <= k <= len ==> r == k
    ensures k < 0 ==> r == 0
    ensures len < k ==> r == len
  {
    if k < 0 then 0 else if k > len then len else k
  }

  /** `s.substring(start, end)`: both arguments are clamped, then swapped
      when the start lies after the end. */
  function Substring(s: string, start: int, end: int): (r: string)
    ensures |r| <= |s|
    ensures 0 <= start <= end <= |s| ==> r == s[start..end]
    ensures 0 <= end <= start <= |s| ==> r == s[end..start]
  {
    var a := Clamp(start, |s|);
    var b := Clamp(end, |s|);
    if a <= b then s[a..b] else s[b..a]
  }

  /** `s.substring(start)`: the end defaults to the length. */
  function SubstringFrom(s: string, start: int): (r: string)
    ensures r == s[Clamp(start, |s|)..]
  {
    Substring(s, start, |s|)
  }
}

=== FILE: s3_service.dfy ===
/** The storage service of `src/s3.service.ts`, lifted into pure functions.
    Each SDK call is a function parameter from the request the service builds
    to the promise outcome the SDK produces; the service's
    catch-log-rethrow becomes "the SDK's error is returned unchanged". The
    generated UUID of `putAsUniqueName` is a parameter too. */
module S3Service {
  import opened Wrappers
  import opened Interfaces
  import opened Helpers

  /** The ACL used when the configuration names none. */
  const DefaultAcl: CannedAcl := PublicRead

  /** What the SDK client is constructed with. */
  datatype ClientConfig = ClientConfig(accessKeyId: string, secretAccessKey: string, region: string)

  /** A constructed service: its client, bucket and ACL. */
  datatype Service = Service(client: ClientConfig, bucket: string, acl: CannedAcl)

  /** The constructor: credentials and region go to the client, the bucket is
      kept, and the ACL defaults to public-read. */
  function NewService(config: Options): (svc: Service)
    ensures svc.bucket == config.bucket
    ensures config.acl.Some? ==> svc.acl == config.acl.value
    ensures config.acl.None? ==> svc.acl == PublicRead && AclName(svc.acl) == "public-read"
    ensures svc.client.accessKeyId == config.accessKeyId
    ensures svc.client.secretAccessKey == config.secretAccessKey
    ensures svc.client.region == config.region
  {
    Service(ClientConfig(config.accessKeyId, config.secretAccessKey, config.region),
            config.bucket,
            config.acl.GetOr(DefaultAcl))
  }

  /** The key `put` uploads to: a trimmed path that has an extension is the
      key itself; any other path (including none) is a folder the original
      name goes into. */
  function PutKey(path: Option<string>, originalname: string): (key: string)
    ensures path.Some? && DotAfterStart(path.value) ==> key == TrimLastSlash(path)
    ensures !(path.Some? && DotAfterStart(path.value)) ==> key == TrimLastSlash(path) + "/" + originalname
  {
    var p := TrimLastSlash(path);
    if HasExtension(Some(p)) then p else p + "/" + originalname
  }

  /** The request `put` hands to the SDK. */
  function PutRequest<B>(svc: Service, file: UploadedFile<B>, path: Option<string>): (req: PutObjectRequest<B>)
    ensures req.bucket == svc.bucket && req.acl == svc.acl && req.body == file.buffer
    ensures req.key == PutKey(path, file.originalname)
  {
    PutObjectRequest(svc.bucket, svc.acl, file.buffer, PutKey(path, file.originalname))
  }

  /** The private `upload`: the response carries the SDK's location as its
      URL and the SDK's whole output as its origin; a rejection passes
      through unchanged. */
  function Upload<B, E>(req: PutObjectRequest<B>, sdk: PutObjectRequest<B> -> Result<SendData, E>)
    : (r: Result<UploadedResponse, E>)
    ensures r.Success? <==> sdk(req).Success?
    ensures r.Success? ==> r.value.url == sdk(req).value.location && r.value.origin == sdk(req).value
    ensures r.Failure? ==> r.error == sdk(req).error
  {
    match sdk(req)
    case Success(data) => Success(UploadedResponse(data.location, data))
    case Failure(e) => Failure(e)
  }

  /** `put`. */
  function Put<B, E>(svc: Service, file: UploadedFile<B>, path: Option<string>,
                     sdk: PutObjectRequest<B> -> Result<SendData, E>): (r: Result<UploadedResponse, E>)
    ensures var req := PutRequest(svc, file, path);
            && (r.Success? <==> sdk(req).Success?)
            && (r.Success? ==> r.value.url == sdk(req).value.location && r.value.origin == sdk(req).value)
            && (r.Failure? ==> r.error == sdk(req).error)
  {
    Upload(PutRequest(svc, file, path), sdk)
  }

  /** The generated file name of `putAsUniqueName`: the UUID, a dot and the
      file's extension. */
  function UniqueFileName<B>(uuid: string, file: UploadedFile<B>): (name: string)
    ensures |name| == |uuid| + 1 + |GetFileExtension(file)|
    ensures name[..|uuid|] == uuid && name[|uuid|] == '.'
    ensures name[|uuid| + 1..] == GetFileExtension(file)
  {
    uuid + "." + GetFileExtension(file)
  }

  /** The key `putAsUniqueName` uploads to: the generated name, inside the
      trimmed folder when that is not empty. */
  function UniqueKey<B>(folder: Option<string>, uuid: string, file: UploadedFile<B>): (key: string)
    ensures TrimLastSlash(folder) == [] ==> key == UniqueFileName(uuid, file)
    ensures TrimLastSlash(folder) != [] ==> key == TrimLastSlash(folder) + "/" + UniqueFileName(uuid, file)
  {
    var p := TrimLastSlash(folder);
    var fileName := UniqueFileName(uuid, file);
    if p != [] then p + "/" + fileName else fileName
  }

  /** The request `putAsUniqueName` hands to the SDK. */
  function UniqueRequest<B>(svc: Service, file: UploadedFile<B>, folder: Option<string>, uuid: string)
    : (req: PutObjectRequest<B>)
    ensures req.bucket == svc.bucket && req.acl == svc.acl && req.body == file.buffer
    ensures req.key == UniqueKey(folder, uuid, file)
  {
    PutObjectRequest(svc.bucket, svc.acl, file.buffer, UniqueKey(folder, uuid, file))
  }

  /** `putAsUniqueName`, with the generated UUID as a parameter. */
  function PutAsUniqueName<B, E>(svc: Service, file: UploadedFile<B>, folder: Option<string>, uuid: string,
                                 sdk: PutObjectRequest<B> -> Result<SendData, E>): (r: Result<UploadedResponse, E>)
    ensures var req := UniqueRequest(svc, file, folder, uuid);
            && (r.Success? <==> sdk(req).Success?)
            && (r.Success? ==> r.value.url == sdk(req).value.location && r.value.origin == sdk(req).value)
            && (r.Failure? ==> r.error == sdk(req).error)
  {
    Upload(UniqueRequest(svc, file, folder, uuid), sdk)
  }

  /** `delete`: a resolved SDK call always reports status true. */
  function Delete<O, E>(svc: Service, key: string, sdk: ObjectRequest -> Result<O, E>)
    : (r: Result<DeletedResponse<O>, E>)
    ensures var req := ObjectRequest(svc.bucket, key);
            && (r.Success? <==> sdk(req).Success?)
            && (r.Success? ==> r.value.status && r.value.origin == sdk(req).value)
            && (r.Failure? ==> r.error == sdk(req).error)
  {
    match sdk(ObjectRequest(svc.bucket, key))
    case Success(data) => Success(DeletedResponse(true, data))
    case Failure(e) => Failure(e)
  }

  /** `get`: the response echoes the requested key and copies the SDK's
      length, type and body. */
  function Get<B, E>(svc: Service, key: string, sdk: ObjectRequest -> Result<GetObjectOutput<B>, E>)
    : (r: Result<GotResponse<B>, E>)
    ensures var req := ObjectRequest(svc.bucket, key);
            && (r.Success? <==> sdk(req).Success?)
            && (r.Success? ==> var data := sdk(req).value;
                  r.value == GotResponse(key, data.contentLength, data.contentType, data.body))
            && (r.Failure? ==> r.error == sdk(req).error)
  {
    match sdk(ObjectRequest(svc.bucket, key))
    case Success(data) => Success(GotResponse(key, data.contentLength, data.contentType, data.body))
    case Failure(e) => Failure(e)
  }

  /** The request `lists` hands to the SDK. */
  function ListRequest(svc: Service, folder: Option<string>): (req: ListObjectsRequest)
    ensures req.bucket == svc.bucket
    ensures folder.Some? && !EndsWithSlash(folder.value) ==> req.prefix == folder.value
    ensures folder.Some? && EndsWithSlash(folder.value) ==> req.prefix == folder.value[..|folder.value| - 1]
    ensures folder.None? ==> req.prefix == ""
  {
    ListObjectsRequest(svc.bucket, TrimLastSlash(folder))
  }

  /** The listed items: one per SDK entry, in order, each copying the entry's
      key, size and modification date and carrying the listing's bucket
      name. */
  function ToItems<D>(contents: seq<S3Object<D>>, bucketName: string): (items: seq<Item<D>>)
    ensures |items| == |contents|
    ensures forall i :: 0 <= i < |items| ==>
              && items[i].key == contents[i].key
              && items[i].size == contents[i].size
              && items[i].lastModified == contents[i].lastModified
              && items[i].bucket == bucketName
    decreases |contents|
  {
    if contents == [] then []
    else [Item(contents[0].key, contents[0].size, contents[0].lastModified, bucketName)]
         + ToItems(contents[1..], bucketName)
  }

  /** Why a listing can fail. */
  datatype ListError<E> =
    | SdkError(cause: E)
      /** The SDK output has no `Contents`; the source dereferences it anyway. */
    | ContentsMissing

  /** `lists`. */
  function Lists<D, E>(svc: Service, folder: Option<string>,
                       sdk: ListObjectsRequest -> Result<ListObjectsOutput<D>, E>)
    : (r: Result<seq<Item<D>>, ListError<E>>)
    ensures var req := ListRequest(svc, folder);
            && (r.Success? <==> sdk(req).Success? && sdk(req).value.contents.Some?)
            && (r.Success? ==> r.value == ToItems(sdk(req).value.contents.value, sdk(req).value.name))
            && (sdk(req).Failure? ==> r == Failure(SdkError(sdk(req).error)))
            && (sdk(req).Success? && sdk(req).value.contents.None? ==> r == Failure(ContentsMissing))
  {
    match sdk(ListRequest(svc, folder))
    case Failure(e) => Failure(SdkError(e))
    case Success(data) =>
      match data.contents
      case None => Failure(ContentsMissing)
      case Some(contents) => Success(ToItems(contents, data.name))
  }
}

=== FILE: service_properties.dfy ===
/** Properties of the service: the shape of the keys `put` and
    `putAsUniqueName` derive, the configuration defaults, and the listing's
    field renaming. */
module ServiceProperties {
  import opened Wrappers
  import opened Interfaces
  import opened Helpers
  import opened HelperProperties
  import opened S3Service

  /** Without a configured ACL the service uses public-read; with one it uses
      that one. The bucket is always the configured one. */
  lemma AclDefault(config: Options)
    ensures NewService(config).acl == (if config.acl.Some? then config.acl.value else PublicRead)
    ensures NewService(config).bucket == config.bucket
  {
  }

  /** The configured endpoint never reaches the service: two configurations
      that differ only in it build the same service. */
  lemma EndpointIgnored(config: Options, endpoint: Option<string>)
    ensures NewService(config.(endpoint := endpoint)) == NewService(config)
  {
  }

  /** A prefix of a string with no dot after its first character has none
      either. */
  lemma NoDotInPrefix(p: string, s: string)
    requires p <= s && !DotAfterStart(s)
    ensures !DotAfterStart(p)
  {
  }

  /** `put` without a path uploads to the original name under a leading
      slash, because an undefined path trims to the empty string. */
  lemma PutKeyWithoutPath(originalname: string)
    ensures PutKey(None, originalname) == "/" + originalname
  {
  }

  /** A path with no dot after its first character is a folder: the original
      name goes under it, and a trailing slash is not doubled. */
  lemma PutKeyIntoFolder(path: string, originalname: string)
    requires !DotAfterStart(path)
    ensures EndsWithSlash(path) ==> PutKey(Some(path), originalname) == path + originalname
    ensures !EndsWithSlash(path) ==> PutKey(Some(path), originalname) == path + "/" + originalname
  {
    var p := TrimLastSlash(Some(path));
    NoDotInPrefix(p, path);
    if EndsWithSlash(path) {
      assert path == p + "/";
    }
  }

  /** A path without a trailing slash whose last dot is after its first
      character is the key itself, whatever the file is called. */
  lemma PutKeyExplicit(path: string, name1: string, name2: string)
    requires DotAfterStart(path) && !EndsWithSlash(path)
    ensures PutKey(Some(path), name1) == path
    ensures PutKey(Some(path), name1) == PutKey(Some(path), name2)
  {
  }

  /** A path with a dot after its first character and a trailing slash loses
      the slash and becomes the key, whatever the file is called. */
  lemma PutKeyDottedFolder(path: string, originalname: string)
    requires DotAfterStart(path) && EndsWithSlash(path)
    ensures PutKey(Some(path), originalname) == path[..|path| - 1]
  {
    var p := TrimLastSlash(Some(path));
    assert p == path[..|path| - 1];
  }

  /** A dot anywhere in the path counts as an extension, even in a folder
      part, and a dotted folder with a trailing slash loses the slash and
      becomes the key. */
  lemma PutKeyDottedPaths(originalname: string)
    ensures PutKey(Some("dir.x/f"), originalname) == "dir.x/f"
    ensures PutKey(Some("v1.2/"), originalname) == "v1.2"
    ensures PutKey(Some("photos/"), "a.png") == "photos/a.png"
    ensures PutKey(Some("photos//"), "a.png") == "photos//a.png"
  {
    assert "dir.x/f"[3] == '.';
    assert "v1.2"[2] == '.';
    assert TrimLastSlash(Some("v1.2/")) == "v1.2";
    PutKeyIntoFolder("photos/", "a.png");
    PutKeyIntoFolder("photos//", "a.png");
  }

  /** Without a folder (undefined, empty, or a lone slash) the key is the
      generated name itself, with no leading slash. */
  lemma UniqueKeyWithoutFolder<B>(uuid: string, file: UploadedFile<B>)
    ensures UniqueKey(None, uuid, file) == UniqueFileName(uuid, file)
    ensures UniqueKey(Some(""), uuid, file) == UniqueFileName(uuid, file)
    ensures UniqueKey(Some("/"), uuid, file) == UniqueFileName(uuid, file)
  {
  }

  /** With a folder that is more than a lone slash, the key is the generated
      name under that folder, with the trailing slash not doubled. */
  lemma UniqueKeyInFolder<B>(folder: string, uuid: string, file: UploadedFile<B>)
    requires folder != "" && folder != "/"
    ensures EndsWithSlash(folder) ==> UniqueKey(Some(folder), uuid, file) == folder + UniqueFileName(uuid, file)
    ensures !EndsWithSlash(folder) ==> UniqueKey(Some(folder), uuid, file) == folder + "/" + UniqueFileName(uuid, file)
  {
    var p := TrimLastSlash(Some(folder));
    if EndsWithSlash(folder) {
      assert folder == p + "/";
      assert p != [];
    }
  }

  /** The generated name keeps the file's extension: split again, it gives
      back the UUID and the extension, as long as the UUID is not empty and
      has no dot (a version-4 UUID is hex digits and dashes). A name without a
      dot has the whole name as its extension, so it splits back too. */
  lemma UniqueNameKeepsExtension<B>(uuid: string, file: UploadedFile<B>)
    requires |uuid| > 0 && '.' !in uuid
    ensures HasExtension(Some(UniqueFileName(uuid, file)))
    ensures GetFileNameFromStr(Some(UniqueFileName(uuid, file))) == uuid
    ensures GetFileExtensionFromStr(Some(UniqueFileName(uuid, file))) == GetFileExtension(file)
  {
    var ext := GetFileExtension(file);
    assert UniqueFileName(uuid, file) == uuid + "." + ext;
    FromStrSplitJoin(uuid, ext);
  }

  /** A file name without a dot becomes the whole "extension": the generated
      name is the UUID, a dot and the original name. */
  lemma UniqueNameWithoutDot<B>(uuid: string, file: UploadedFile<B>)
    requires '.' !in file.originalname
    ensures UniqueFileName(uuid, file) == uuid + "." + file.originalname
  {
  }

  /** The generated key does not depend on the file's base name: files with
      the same extension get the same key. */
  lemma UniqueKeyIgnoresBaseName<B>(folder: Option<string>, uuid: string, f1: UploadedFile<B>, f2: UploadedFile<B>)
    requires GetFileExtension(f1) == GetFileExtension(f2)
    ensures UniqueKey(folder, uuid, f1) == UniqueKey(folder, uuid, f2)
  {
  }

  /** With no folder, `put` and `putAsUniqueName` disagree on the leading
      slash: `put` starts its key with one, `putAsUniqueName` does not. */
  lemma NoFolderLeadingSlash<B>(uuid: string, file: UploadedFile<B>)
    requires |uuid| > 0 && uuid[0] != '/'
    ensures PutKey(None, file.originalname)[0] == '/'
    ensures UniqueKey(None, uuid, file)[0] != '/'
  {
  }

  /** The listing prefix is the folder with one trailing slash removed. */
  lemma ListPrefixTrimmed(svc: Service)
    ensures ListRequest(svc, Some("photos/")).prefix == "photos"
    ensures ListRequest(svc, Some("photos//")).prefix == "photos/"
    ensures ListRequest(svc, None).prefix == ""
  {
  }

  /** Converting listed items back into SDK entries, in order. */
  function FromItems<D>(items: seq<Item<D>>): (entries: seq<S3Object<D>>) {
    if items == [] then []
    else [S3Object(items[0].key, items[0].size, items[0].lastModified)] + FromItems(items[1..])
  }

  /** Nothing of the SDK's entries is lost in the renaming: converting the
      items back gives exactly the entries, in order. */
  lemma {:induction false} ToItemsRoundTrip<D>(contents: seq<S3Object<D>>, bucketName: string)
    ensures FromItems(ToItems(contents, bucketName)) == contents
    decreases |contents|
  {
    if contents != [] {
      var items := ToItems(contents, bucketName);
      assert items[1..] == ToItems(contents[1..], bucketName);
      ToItemsRoundTrip(contents[1..], bucketName);
      assert contents == [contents[0]] + contents[1..];
    }
  }

  /** Listing the entries of two pages together is listing them one after
      the other. */
  lemma ToItemsAppend<D>(a: seq<S3Object<D>>, b: seq<S3Object<D>>, bucketName: string)
    ensures ToItems(a + b, bucketName) == ToItems(a, bucketName) + ToItems(b, bucketName)
  {
  }
}

=== FILE: wrappers.dfy ===
/** Wrappers used across the model: `Option` stands for a
    JavaScript value that may be `undefined`, `Result` for a promise that either
    resolves with a value or rejects with an error. */
module Wrappers {

  /** A value that may be absent (`undefined` in the source). */
  datatype Option<+T> = None | Some(value: T) {

    /** The value, or `default` when absent (the `??` operator). */
    function GetOr(default: T): (r: T)
      ensures Some? ==> r == value
      ensures None? ==> r == default
    {
      match this
      case Some(v) => v
      case None => default
    }
  }

  /** A resolved promise (`Success`) or a rejected one (`Failure`). */
  datatype Result<+R, +E> = Success(value: R) | Failure(error: E)
}
